=== FILE: README.md ===
# Project service of a collaborative graphics editor, in Dafny

This project models the core of the project service of a multi-service graphics-editor backend. It covers three parts:

- **The project record and table.** `ProjectModel` holds the `Project` row. `Store` is the Projects table: a map from id to project in which every entry sits under its own project's id. The id is the primary key and is init-only, so no update can move a project to another key. `ImageService` stands for the two image routines, which are passed in as functions.
- **The two REST controllers.**
  - `ProjectsController` is the authenticated one. The owner is always the `X-UserId` header, and every single-project action matches on id *and* owner.
  - `ProjectController` is the unauthenticated one. The owner of a new project comes from the request body, the listing filters on the `UserId` header, and read, delete and save match on id alone.
  - Each writing action (create, upload, delete, save) is a pure function from the store to `Reply(store', Ok(..) | NotFound(message))`. A single-project read returns only a `Response` (`Ok(..)` or `NotFound(message)`), since it leaves the store as it is. The paginated listing is a method (module `Listing`). It enumerates the caller's projects, sorts them by last-modified time with the newest first, and cuts out the requested 1-based page. An empty page is "not found".
- **The collaboration hub** (`SignalingHub`). The hub state holds three things:
  - the registry `ConnectedClients` (room name to connection ids);
  - the broadcast-group membership;
  - the projects' persisted collaborator lists.

  `JoinRoom`, `LeaveRoom` and `SendMessage` are transitions. Each returns the next state, the events emitted (`Created`, `Joined`, `Message`, `Log`, each with its recipients at the moment of sending) and an outcome. `HubProperties` states the frame conditions, the creator/joiner decision and the registry invariant. It also states properties of arbitrary call sequences.

Two consequences of the join's code that are easy to miss:

- **Collaborator append.** The join appends the caller to the project's collaborators only when the caller is missing from the room's *registry list* (`SignalingHub.cs:27`). The collaborator list itself is never consulted.
- **Duplicate collaborators.** A leave removes the caller from the registry list but not from the collaborators. So after a leave and a rejoin the collaborator list holds the connection twice (`HubProperties.LeaveThenRejoinAppendsAgain`).

## Model

| member | source | states |
|---|---|---|
| ProjectModel.NewProject | ProjectService/ProjectModel.cs:13-30 | A newly built project has an empty collaborator list. All required fields are set. Image and preview are present, and the preview is the compressed image. |
| ProjectModel.Saved | ProjectService/Controllers/ProjectsController.cs:138-141 | A save sets image, name, preview (compressed image) and modification time. Putting those four fields back gives the original project, so id, owner, size, creation date and collaborators are unchanged. |
| ProjectModel.Put | ProjectService/ProjectModel.cs:9-11 | Storing a project under its id replaces exactly that entry. The table stays keyed by id and no other entry changes. |
| Listing.InsertByRecency | ProjectService/Controllers/ProjectsController.cs:75 | Inserting into a list sorted by recency keeps it sorted. It adds exactly that one project. |
| Listing.SortByRecency | ProjectService/Controllers/ProjectsController.cs:75 | The order is non-increasing in LastModifiedDate, and the result is a permutation of the input. Equal times may come in any order. |
| Listing.Window | ProjectService/Controllers/ProjectsController.cs:76-77 | A page has at most pageSize rows. Row i is row (pageNumber-1)*pageSize + i of the ordered list. A page starting past the end is empty, otherwise it is as long as the rows left allow. |
| Listing.PagesArePrefix | ProjectService/Controllers/ProjectsController.cs:76-77 | Reading pages 1..n in turn yields exactly the first n*pageSize rows, or the whole list: no row is skipped or repeated. |
| Listing.RowOnItsPage | ProjectService/Controllers/ProjectsController.cs:76-77 | Row i of the ordered listing is entry i mod size of page i div size + 1. |
| Listing.PageResponse | ProjectService/Controllers/ProjectsController.cs:78-95 | An empty page is NotFound("No projects found."), never an empty Ok. A non-empty page gives one summary per row, in order. Each summary copies id, name, preview and both dates, and counts the collaborators. |
| Listing.OwnedProjects | ProjectService/Controllers/ProjectsController.cs:73-74 | The result holds every stored project of the owner exactly once and nothing else. |
| Listing.ListPage | ProjectService/Controllers/ProjectsController.cs:73-95 | The owner's projects are sorted newest first and are the permutation the page is cut from. The response is that page's summaries, or "not found" when the page is empty. |
| Listing.EnumeratedRows | ProjectService/Controllers/ProjectsController.cs:74 | A project is in a listing exactly when it is stored and owned by the listed owner. |
| ProjectsController.Create | ProjectService/Controllers/ProjectsController.cs:20-43 | Create adds exactly one project under the fresh id and returns that id. Every other entry is unchanged. The owner is the X-UserId header. The image is the blank canvas of the requested size and the preview is its compression. Collaborators start empty. |
| ProjectsController.Upload | ProjectService/Controllers/ProjectsController.cs:45-66 | Upload is the same as Create, except that the image is the uploaded one and the preview is its compression. |
| ProjectsController.GetAllProjects | ProjectService/Controllers/ProjectsController.cs:68-101 | The listing holds exactly the projects whose owner is the X-UserId header, sorted newest first. The response is the requested page of it. Page number and size default to 1 and 10, so a request without them gets the ten most recent projects. |
| ProjectsController.GetProject | ProjectService/Controllers/ProjectsController.cs:103-113 | The result is Ok exactly when the id exists and belongs to the X-UserId caller, and then carries that project's name and image. Otherwise it is NotFound("Project not found."). |
| ProjectsController.DeleteProject | ProjectService/Controllers/ProjectsController.cs:115-128 | When id and owner match, exactly that project is removed and every other entry is unchanged. Otherwise the result is NotFound and the store is untouched. |
| ProjectsController.SaveProject | ProjectService/Controllers/ProjectsController.cs:130-147 | When id and owner match, name, image, preview and modification time are replaced. Id, owner, size, creation date, collaborators and all other entries are kept. Otherwise the result is NotFound and the store is untouched. |
| ProjectController.Create | ProjectService/Controllers/ProjectController.cs:18-39 | Create adds exactly one project and returns its id. The owner is the UserId field of the request body. |
| ProjectController.Upload | ProjectService/Controllers/ProjectController.cs:41-60 | Upload adds exactly one project holding the uploaded image. The owner is the UserId field of the body. |
| ProjectController.GetAllProjects | ProjectService/Controllers/ProjectController.cs:62-97 | The listing filters on the UserId header, not X-UserId. It uses the same newest-first order, the same window, the same defaults of page 1 and size 10, and the same empty-is-NotFound rule. |
| ProjectController.GetProject | ProjectService/Controllers/ProjectController.cs:99-108 | The result is Ok exactly when the id exists, for any caller. |
| ProjectController.DeleteProject | ProjectService/Controllers/ProjectController.cs:110-122 | Delete removes the project whenever the id exists, whoever asks. An absent id gives NotFound and leaves the store untouched. |
| ProjectController.SaveProject | ProjectService/Controllers/ProjectController.cs:124-140 | Save updates only image, name, preview and modification time whenever the id exists. An absent id gives NotFound and leaves the store untouched. |
| ControllerProperties.HeaderNamesIgnoreCase | ProjectService/Controllers/ProjectsController.cs:25 | Two spellings of a header name that differ only in letter case read the same value. |
| ControllerProperties.LowerCaseOwnerHeader | ProjectService/Controllers/ProjectsController.cs:104-108 | A request whose owner header arrives as `x-userid: alice` is attributed to "alice". |
| ControllerProperties.CreateThenGet | ProjectService/Controllers/ProjectsController.cs:20-113 | The creator reads back the new project with its name and generated image. |
| ControllerProperties.UploadThenGet | ProjectService/Controllers/ProjectsController.cs:45-113 | The uploader reads back the uploaded image. |
| ControllerProperties.SaveThenGet | ProjectService/Controllers/ProjectsController.cs:103-147 | After a save, the owner reads back the saved name and image. |
| ControllerProperties.DeleteThenGetOrDelete | ProjectService/Controllers/ProjectsController.cs:103-128 | After a delete, a read is NotFound. A second delete is NotFound and changes nothing. |
| ControllerProperties.ListedProjectsAreReadable | ProjectService/Controllers/ProjectsController.cs:68-113 | Every row of the caller's listing page opens, for that caller, to that row's name and image. |
| ControllerProperties.ForeignProjectHidden | ProjectService/Controllers/ProjectController.cs:99-140 | For another user's project, the owner-filtered read, delete and save are NotFound and change nothing. The unfiltered controller reads, deletes and saves it for anyone. |
| ControllerProperties.OwnerSeesSameInBoth | ProjectService/Controllers/ProjectsController.cs:103-147 | On the caller's own project the two controllers give identical replies. |
| ControllerProperties.BodyOwnerDecides | ProjectService/Controllers/ProjectController.cs:18-39 | A project created through the unfiltered controller is visible in the filtered one exactly to the user the body named. |
| SignalingHub.Decimal | ProjectService/SignalingHub.cs:51 | A member count is rendered as a non-empty string of decimal digits that denotes exactly that count, with no leading zero; zero itself is "0". |
| SignalingHub.Text | ProjectService/SignalingHub.cs:85-89 | Every log line broadcast begins with "[Server]: " followed by a non-empty message. |
| SignalingHub.RemoveFirst | ProjectService/SignalingHub.cs:58 | One occurrence of the id is removed and every other element is kept. The list is unchanged when the id is absent. With no duplicates, the id is gone afterwards. |
| SignalingHub.JoinRoom | ProjectService/SignalingHub.cs:20-52 | After a join the room always has a registry entry. The join faults with a null dereference exactly when the caller is not yet listed and the room has no project. |
| SignalingHub.LeaveRoom | ProjectService/SignalingHub.cs:54-68 | A leave always completes and touches no project. The room's entry is gone afterwards exactly when it was absent or held only the caller. |
| SignalingHub.SendMessage | ProjectService/SignalingHub.cs:14-18 | The state is unchanged. The group gets a log line, and the payload goes to every group member except the sender. |
| SignalingHub.JoinRoomChecked | ProjectService/SignalingHub.cs:23-32 | A first join to a room without a project is rejected and changes nothing. Otherwise the result is the join as written, and it never faults. |
| HubProperties.JoinFrame | ProjectService/SignalingHub.cs:20-39 | A join changes only its own room's entry and its own group. It opens with the join-request log to the group as it was. A completed join adds the caller to the group even when the caller was already listed. |
| HubProperties.RepeatedJoinChangesNothing | ProjectService/SignalingHub.cs:27 | A join by a connection already in the room's list changes neither the registry nor any collaborator list. |
| HubProperties.FirstJoinAppendsOnce | ProjectService/SignalingHub.cs:27-36 | A first join appends the caller once to the room list and once to the project's collaborators, so the length grows by one. No other field or project changes. |
| HubProperties.JoinRegistersOnce | ProjectService/SignalingHub.cs:23-36 | After a completed join, the caller appears exactly once in the room's list. |
| HubProperties.CreatorOrJoiner | ProjectService/SignalingHub.cs:39-51 | When the count after the join is 1, only the caller gets `created`. Otherwise the whole group, caller included, gets `joined` and nobody gets `created`. The last event logs the count. |
| HubProperties.GreetsOnce | ProjectService/SignalingHub.cs:39-49 | A completed join sends `created` exactly once when the caller is alone in the room and never otherwise. It sends `joined` exactly once when others are present and never otherwise. |
| HubProperties.RoomSizeTextCarriesCount | ProjectService/SignalingHub.cs:51 | The broadcast room-size line ends with the count's decimal digits followed by " client(s)", and those digits denote the count. |
| HubProperties.SoleMemberRejoinIsCreatedAgain | ProjectService/SignalingHub.cs:41-45 | A sole member joining again receives `created` again, and the state is unchanged. |
| HubProperties.NullProjectFault | ProjectService/SignalingHub.cs:23-32 | A first join to a room without a project faults after the room's entry was made. The entry is kept (empty if it was new), groups and projects are unchanged, and only the request log was sent. |
| HubProperties.LeaveFrame | ProjectService/SignalingHub.cs:54-67 | A leave changes only its own room's entry. It always removes the caller from the group, even when the caller was never listed. It touches no other group and no project. |
| HubProperties.LeaveByStrangerKeepsRegistry | ProjectService/SignalingHub.cs:57 | A leave by a connection not in the list leaves the registry unchanged. |
| HubProperties.LeaveRemovesCaller | ProjectService/SignalingHub.cs:57-58 | A leave removes the caller once and keeps every other member. |
| HubProperties.LeaveEmptiesRoom | ProjectService/SignalingHub.cs:61-64 | The room's entry is deleted, and the "now empty" line is logged, exactly when the caller was the only member. |
| HubProperties.LeaveLogsEmptyOnce | ProjectService/SignalingHub.cs:56-64 | The "now empty" line is logged exactly once when the caller was the only member, and never otherwise. |
| HubProperties.LeaveThenRejoinAppendsAgain | ProjectService/SignalingHub.cs:27-36 | From any state whose room list names nobody twice (every state the hub as written reaches), a leave never shrinks the collaborators. Leaving and rejoining appends the caller again, so its count in the list grows by one. |
| HubProperties.InvariantMeansOccupied | ProjectService/SignalingHub.cs:61-62 | Under the registry invariant, a room has an entry exactly when its member count is positive. |
| HubProperties.AppendFresh | ProjectService/SignalingHub.cs:36 | Appending an id that is not yet listed keeps the room list free of duplicates. |
| HubProperties.JoinPreservesInvariant | ProjectService/SignalingHub.cs:20-52 | A completed join keeps the invariant that every entry is non-empty and free of duplicates. |
| HubProperties.LeavePreservesInvariant | ProjectService/SignalingHub.cs:54-68 | A leave keeps the registry invariant. |
| HubProperties.CheckedJoinPreservesInvariant | ProjectService/SignalingHub.cs:23-32 | The corrected join keeps the registry invariant on every input. |
| HubProperties.FaultLeavesEmptyRoom | ProjectService/SignalingHub.cs:23-32 | The join as written, faulting on a room with no entry, leaves an empty entry behind and breaks the invariant. |
| HubProperties.NullProjectLeavesEmptyRoom | ProjectService/SignalingHub.cs:23-32 | A concrete case: on an empty hub, joining "r1" faults and leaves "r1" registered with nobody in it. |
| HubProperties.RunPreservesInvariant | ProjectService/SignalingHub.cs:14-68 | Any sequence of joins, leaves and messages on the corrected hub keeps the invariant. A room is registered exactly while it has members. |
| HubProperties.JoinKeepsNoDuplicates | ProjectService/SignalingHub.cs:20-36 | A join as written, faulting or not, never lists a connection twice in one room. |
| HubProperties.LeaveKeepsNoDuplicates | ProjectService/SignalingHub.cs:54-64 | A leave never lists a connection twice in one room. |
| HubProperties.StepKeepsNoDuplicates | ProjectService/SignalingHub.cs:14-68 | No single call on the hub as written lists a connection twice in one room. |
| HubProperties.RunAsWrittenKeepsNoDuplicates | ProjectService/SignalingHub.cs:12-68 | Over any call sequence on the hub as written, faults included, no room's list names a connection twice. So the preconditions of `JoinRegistersOnce` and `LeaveThenRejoinAppendsAgain` hold in every reachable state, even where a fault has broken the registry invariant. |
| HubProperties.StepExtendsCollaborators | ProjectService/SignalingHub.cs:14-68 | No hub call removes a project or shortens a collaborator list. |
| HubProperties.RunExtendsCollaborators | ProjectService/SignalingHub.cs:12-68 | Over any call sequence on the hub as written, each project's collaborator list is a prefix of its later list, so the list only grows. A faulting join fails only its own call: the calls after it still run on the static registry it left behind. |

## Findings

| source | as written | input that shows it | evidently intended | confidence | as-written member | corrected member |
|---|---|---|---|---|---|---|
| ProjectService/SignalingHub.cs:23-32 | The room gets a registry entry before the project lookup. When no project has the room's id, the lookup yields null and the collaborator append dereferences it. The empty entry stays behind. | Connection "c1" joins room "r1" on a hub with no rooms and no projects. | Look the project up first, and refuse the join without touching the registry. | not executed; high | HubProperties.NullProjectLeavesEmptyRoom | SignalingHub.JoinRoomChecked |

`HubProperties.FaultLeavesEmptyRoom` generalises the as-written case: the fault breaks the registry invariant. `HubProperties.CheckedJoinPreservesInvariant` and `HubProperties.RunPreservesInvariant` prove the intended property for the corrected join. Call sequences folded by `Run` use the corrected join.

## Left out

- Message delivery: sending over the real-time transport and writing to the console are not modelled. Each emission is recorded as an event with its recipient set.
- Concurrency: `ConnectedClients` is an unlocked static dictionary shared by all hub instances. Each hub call is treated as one atomic step, and races such as two simultaneous first joins both becoming creator are not modelled.
- Hub exceptions: the `NullReference` outcome records that the join stops at the fault. Later calls still run on the state it left, as `HubProperties.RunAsWritten` folds them. How the framework reports the error to the client is not modelled.
- Disconnects: a dropped connection with no explicit leave stays in the registry. The source has no disconnect handler, so there is nothing of its own to model. The real-time framework itself removes a dropped connection from every group, though. After a drop, the model's `groups` would still list a connection the framework has already removed.
- Persistence: the database, `SaveChangesAsync` and change tracking are abstracted as the `Store` map. Id generation is a fresh id the caller supplies, absent from the store.
- Listing failures: a storage failure during the listing gives an internal-server-error response (ProjectsController.cs:97-100). Storage failures are not modelled.
- Image routines: `CreateImage` and `CompressImage` are not part of this model. They are the fields of an `ImageService` value passed in.
- Clock: `DateTime.Now` is passed in. Create and upload take two separate readings, for the creation and modification dates, so the model does not make them equal.
- Listing.ValidPage: pages with `pageNumber < 1` or a negative `pageSize` are not covered. The 32-bit overflow of `(pageNumber - 1) * pageSize` is not modelled either; the database's behaviour there is outside the model.
- Listing.SortByRecency: the database's order among projects with equal modification times is not fixed. The model states only sortedness and permutation, and does not cover whether that order stays the same from one page request to the next.
- Authorization and gateway: this covers the `RequireUserId` policy handler (ProjectService/Program.cs:73-89) and the gateway middleware that injects `X-UserId` (api-gateway/Program.cs:48-60). The owner is taken as a plain header value. A missing header reads as the empty string. The policy handler checks the `UserId` header, while the controller reads `X-UserId`; the model takes the controller's reading.
- Request binding: JSON binding of the request models is not modelled. For example, `Width` and `Height` are not `required` in either create model, and absent values would default to 0. Query binding is modelled only as far as the two page defaults. A query value that does not parse as an integer is not covered.
- Header names: names are folded over the ASCII letters only. Header names are tokens made of ASCII characters, so no other folding arises.
- Request and response classes: the two controller files declare the same request and response classes in one namespace (ProjectsController.cs:150-179, ProjectController.cs:143-174), so the two files cannot be built together. Each controller's bodies are modelled as separate datatypes of its own module (`CreateModel`, `UploadModel`, `SaveModel` in `ProjectsController` and in `ProjectController`).
- Log payloads: `SendMessage` takes any object and logs its string form. The model takes the payload as a string.

=== FILE: controller_properties.dfy ===
/** How the project actions fit together: what one action leaves behind is
    what the next one sees, and how the owner-filtered controller differs
    from the unfiltered one. */
module ControllerProperties {
  import opened ProjectModel
  import opened Http
  import Listing
  import Projects = ProjectsController
  import Open = ProjectController

  /** Header names are matched ignoring case: two spellings of one name
      read the same value from any request. */
  lemma HeaderNamesIgnoreCase(headers: Headers, a: string, b: string)
    requires Lower(a) == Lower(b)
    ensures HeaderValue(headers, a) == HeaderValue(headers, b)
  {
  }

  /** A request whose owner header arrives in lower case, as HTTP/2 always
      sends header names, is attributed to the user it names: one instance
      of `HeaderNamesIgnoreCase` with `OwnerHeader`, worked out on a
      concrete request. */
  lemma LowerCaseOwnerHeader()
    ensures Folded("x-userid")
    ensures Projects.Owner(map["x-userid" := "alice"]) == "alice"
  {
    assert Lower("x-userid") == "x-userid";
    assert Lower(Projects.OwnerHeader) == "x-userid";
  }

  /** A project created by the caller can be read back by the same caller,
      with the requested name and the generated image. */
  lemma CreateThenGet(store: Store, headers: Headers, model: Projects.CreateModel,
                      images: ImageService, freshId: string,
                      created: Timestamp, modified: Timestamp)
    requires freshId !in store
    ensures var r := Projects.Create(store, headers, model, images, freshId, created, modified);
            Projects.GetProject(r.store, headers, freshId)
              == Ok(ProjectView(model.name, Some(images.createImage(model.width, model.height))))
  {
  }

  /** An uploaded project can be read back by its uploader, image unchanged. */
  lemma UploadThenGet(store: Store, headers: Headers, model: Projects.UploadModel,
                      images: ImageService, freshId: string,
                      created: Timestamp, modified: Timestamp)
    requires freshId !in store
    ensures var r := Projects.Upload(store, headers, model, images, freshId, created, modified);
            Projects.GetProject(r.store, headers, freshId) == Ok(ProjectView(model.name, Some(model.image)))
  {
  }

  /** After a successful save the owner reads back the saved name and image. */
  lemma SaveThenGet(store: Store, headers: Headers, id: string, model: Projects.SaveModel,
                    images: ImageService, now: Timestamp)
    requires Projects.OwnsProject(store, headers, id)
    ensures var r := Projects.SaveProject(store, headers, id, model, images, now);
            Projects.GetProject(r.store, headers, id) == Ok(ProjectView(model.name, Some(model.image)))
  {
  }

  /** Deleting is final and idempotent in effect: a read after a delete
      finds nothing, and a second delete is "not found" and changes nothing. */
  lemma DeleteThenGetOrDelete(store: Store, headers: Headers, id: string)
    ensures var r := Projects.DeleteProject(store, headers, id);
            && Projects.GetProject(r.store, headers, id) == NotFound(ProjectNotFound)
            && Projects.DeleteProject(r.store, headers, id) == Reply(r.store, NotFound(ProjectNotFound))
  {
  }

  /** Every row on a page of the caller's listing can be opened by the
      caller, and opening it shows that row's name and image. */
  lemma ListedProjectsAreReadable(store: Store, headers: Headers, ordered: seq<Project>,
                                  pageNumber: int, pageSize: int, i: nat)
    requires Listing.Enumerates(store, Projects.Owner(headers), ordered)
    requires Listing.ValidPage(pageNumber, pageSize)
    requires i < |Listing.Window(ordered, pageNumber, pageSize)|
    ensures var p := Listing.Window(ordered, pageNumber, pageSize)[i];
            Projects.GetProject(store, headers, p.id) == Ok(ProjectView(p.name, p.image))
  {
    var p := Listing.Window(ordered, pageNumber, pageSize)[i];
    assert p == ordered[Listing.Offset(pageNumber, pageSize) + i];
    Listing.EnumeratedRows(store, Projects.Owner(headers), ordered, p);
  }

  /** Someone else's project is invisible to the owner-filtered controller
      (read, delete and save are "not found" and change nothing) while the
      unfiltered controller reads, deletes and saves it for anyone. */
  lemma ForeignProjectHidden(store: Store, headers: Headers, id: string, name: string,
                             image: string, images: ImageService, now: Timestamp)
    requires id in store && store[id].userId != Projects.Owner(headers)
    ensures Projects.GetProject(store, headers, id) == NotFound(ProjectNotFound)
    ensures Projects.DeleteProject(store, headers, id) == Reply(store, NotFound(ProjectNotFound))
    ensures Projects.SaveProject(store, headers, id, Projects.SaveModel(image, name), images, now)
              == Reply(store, NotFound(ProjectNotFound))
    ensures Open.GetProject(store, id) == Ok(ProjectView(store[id].name, store[id].image))
    ensures Open.DeleteProject(store, id).response == Ok(ProjectDeleted)
    ensures id !in Open.DeleteProject(store, id).store
    ensures Open.SaveProject(store, id, Open.SaveModel(image, name), images, now).response
              == Ok(ProjectSavedMessage)
  {
  }

  /** On the caller's own projects the two controllers agree exactly. */
  lemma OwnerSeesSameInBoth(store: Store, headers: Headers, id: string, name: string,
                            image: string, images: ImageService, now: Timestamp)
    requires Projects.OwnsProject(store, headers, id)
    ensures Projects.GetProject(store, headers, id) == Open.GetProject(store, id)
    ensures Projects.DeleteProject(store, headers, id) == Open.DeleteProject(store, id)
    ensures Projects.SaveProject(store, headers, id, Projects.SaveModel(image, name), images, now)
              == Open.SaveProject(store, id, Open.SaveModel(image, name), images, now)
  {
  }

  /** The unfiltered controller stores whatever owner the request body names,
      whatever headers came with it: the owner-filtered controller then
      shows the project to the named user only. */
  lemma BodyOwnerDecides(store: Store, model: Open.CreateModel, headers: Headers,
                         images: ImageService, freshId: string,
                         created: Timestamp, modified: Timestamp)
    requires freshId !in store
    ensures var r := Open.Create(store, model, images, freshId, created, modified);
            Projects.GetProject(r.store, headers, freshId).Ok? <==> Projects.Owner(headers) == model.userId
  {
  }
}

=== FILE: http.dfy ===
/** Request headers, query parameters and the action results the project
    controllers return. */
module Http {
  import opened ProjectModel

  /** ASCII case folding, as the ordinal case-insensitive comparison of
      header names does on the token characters a header name is made of. */
  function LowerChar(c: char): char {
    if 'A' <= c <= 'Z' then (c as int - 'A' as int + 'a' as int) as char else c
  }

  function Lower(s: string): string {
    seq(|s|, i requires 0 <= i < |s| => LowerChar(s[i]))
  }

  /** A header name in the folded form the case-insensitive header
      collection compares by. */
  predicate Folded(name: string) {
    Lower(name) == name
  }

  /** The request's header collection. Names are compared ignoring case, so
      each name is filed under its folded form and two names that differ
      only in case are the same header. */
  type Headers = h: map<string, string> | forall k | k in h :: Folded(k) witness map[]

  /** `Request.Headers[name].ToString()`: the value of the header whose name
      equals `name` ignoring case, or the empty string when the request does
      not carry it. */
  function HeaderValue(headers: Headers, name: string): string {
    if Lower(name) in headers then headers[Lower(name)] else ""
  }

  /** A `[FromQuery] int` parameter with a default: the value the query
      string gives, or the default when the query string leaves it out. */
  function QueryInt(q: Option<int>, default: int): int {
    if q.Some? then q.value else default
  }

  /** `Ok(body)` or `NotFound(message)`. */
  datatype Response<+T> = Ok(body: T) | NotFound(message: string)

  /** The store after an action together with the action's result. */
  datatype Reply<+T> = Reply(store: Store, response: Response<T>)

  const ProjectNotFound: string := "Project not found."
  const NoProjectsFound: string := "No projects found."
  const ProjectDeleted: string := "Project deleted successfully."
  const ProjectSavedMessage: string := "Project saved successfully. "

  /** The body of a successful single-project read. */
  datatype ProjectView = ProjectView(name: string, image: Option<string>)
}

=== FILE: hub_properties.dfy ===
/** Properties of the collaboration hub's transitions: what a join, a leave
    and a message do to the registry, the broadcast groups and the
    collaborator lists, which events they emit, the registry invariant they
    keep, and the one way the join as written breaks it. */
module HubProperties {
  import opened ProjectModel
  import opened SignalingHub

  // ---------------------------------------------------------------- JoinRoom

  /** A join touches only its own room's entry and its own broadcast group,
      opens with the join-request log to the group as it was, and a
      completed join leaves the caller in the group. */
  lemma JoinFrame(s: HubState, caller: ConnectionId, room: RoomName)
    ensures var r := JoinRoom(s, caller, room);
            && r.state.connected - {room} == s.connected - {room}
            && r.events != []
            && r.events[0] == Log(Members(s.groups, room), JoinRequested(room, caller))
            && (r.outcome == Completed ==>
                  && Members(r.state.groups, room) == Members(s.groups, room) + {caller}
                  && r.state.groups - {room} == s.groups - {room})
            && (r.outcome == NullReference ==> r.state.groups == s.groups)
  {
    var request := Log(Members(s.groups, room), JoinRequested(room, caller));
    var connected := s.connected[room := Roster(s.connected, room)];
    var groups := s.groups[room := Members(s.groups, room) + {caller}];
    UpdateKeepsOthers(s.connected, room, Roster(s.connected, room));
    UpdateKeepsOthers(s.groups, room, Members(s.groups, room) + {caller});
    if !(caller in connected[room]) && room in s.projects {
      UpdateKeepsOthers(connected, room, connected[room] + [caller]);
    }
  }

  /** A join by a connection already in the room's list changes neither the
      registry nor any collaborator list. */
  lemma RepeatedJoinChangesNothing(s: HubState, caller: ConnectionId, room: RoomName)
    requires Registered(s.connected, room, caller)
    ensures var r := JoinRoom(s, caller, room);
            && r.outcome == Completed
            && r.state.connected == s.connected
            && r.state.projects == s.projects
  {
  }

  /** A first join to a room whose project exists appends the caller once to
      the room's list and once to the project's collaborators, and changes
      no other field and no other project. */
  lemma FirstJoinAppendsOnce(s: HubState, caller: ConnectionId, room: RoomName)
    requires !Registered(s.connected, room, caller) && room in s.projects
    ensures var r := JoinRoom(s, caller, room);
            var before := s.projects[room];
            && r.outcome == Completed
            && r.state.connected[room] == Roster(s.connected, room) + [caller]
            && r.state.projects.Keys == s.projects.Keys
            && r.state.projects[room].collaborators == before.collaborators + [caller]
            && |r.state.projects[room].collaborators| == |before.collaborators| + 1
            && r.state.projects[room].(collaborators := before.collaborators) == before
            && (forall k | k in s.projects && k != room :: r.state.projects[k] == s.projects[k])
  {
  }

  /** After a completed join the caller is in the room's list exactly once,
      provided the list had no duplicates before. */
  lemma JoinRegistersOnce(s: HubState, caller: ConnectionId, room: RoomName)
    requires NoDuplicates(Roster(s.connected, room))
    requires JoinRoom(s, caller, room).outcome == Completed
    ensures var r := JoinRoom(s, caller, room);
            room in r.state.connected && Count(r.state.connected[room], caller) == 1
  {
    var r := JoinRoom(s, caller, room);
    if Registered(s.connected, room, caller) {
      assert caller in multiset(s.connected[room]);
    } else {
      FirstJoinAppendsOnce(s, caller, room);
      var roster := Roster(s.connected, room);
      assert multiset(roster + [caller]) == multiset(roster) + multiset{caller};
      assert multiset(roster)[caller] == 0;
    }
  }

  /** The greeting half of a join decides on the room's size: a sole member
      gets a private `created`, otherwise the whole group gets `joined`. */
  lemma AnnounceDecides(s: HubState, caller: ConnectionId, room: RoomName, request: Event)
    requires room in s.connected && request.Log?
    ensures var r := Announce(s, caller, room, request);
            var n := |s.connected[room]|;
            var audience := Members(r.state.groups, room);
            && r.state.connected == s.connected
            && caller in audience
            && (Created(caller) in r.events <==> n == 1)
            && (Joined(audience) in r.events <==> n != 1)
            && (forall e | e in r.events && e.Created? :: e.to == caller)
            && (forall e | e in r.events && e.Joined? :: e.recipients == audience)
            && r.events[|r.events| - 1] == Log(audience, RoomSize(room, n))
  {
    var r := Announce(s, caller, room, request);
    var n := |s.connected[room]|;
    var audience := Members(r.state.groups, room);
    var greeting :=
      if n == 1 then [Created(caller), Log(audience, CreatedRoom(caller, room))]
      else [Joined(audience), Log(audience, JoinedRoom(caller, room))];
    assert r.events == [request, greeting[0], greeting[1], Log(audience, RoomSize(room, n))];
  }

  /** The creator/joiner decision, made on the room's size after the join:
      a sole member gets a private `created`, otherwise the whole group,
      caller included, gets `joined`; the last event reports the size. */
  lemma CreatorOrJoiner(s: HubState, caller: ConnectionId, room: RoomName)
    requires JoinRoom(s, caller, room).outcome == Completed
    ensures var r := JoinRoom(s, caller, room);
            var n := |r.state.connected[room]|;
            var audience := Members(r.state.groups, room);
            && n >= 1
            && caller in audience
            && (Created(caller) in r.events <==> n == 1)
            && (Joined(audience) in r.events <==> n > 1)
            && (forall e | e in r.events && e.Created? :: e.to == caller)
            && (forall e | e in r.events && e.Joined? :: e.recipients == audience)
            && r.events[|r.events| - 1] == Log(audience, RoomSize(room, n))
  {
    var request := Log(Members(s.groups, room), JoinRequested(room, caller));
    AnnounceDecides(Registering(s, caller, room), caller, room, request);
  }

  /** How often an event occurs among four events in a row. */
  lemma CountOfFour<T>(a: T, b: T, c: T, d: T, x: T)
    ensures multiset([a, b, c, d])[x] ==
              (if a == x then 1 else 0) + (if b == x then 1 else 0)
              + (if c == x then 1 else 0) + (if d == x then 1 else 0)
  {
  }

  /** The greeting half of a join sends exactly one `created` when the room
      holds one connection and exactly one `joined` otherwise. */
  lemma AnnounceGreetsOnce(s: HubState, caller: ConnectionId, room: RoomName, request: Event)
    requires room in s.connected && request.Log?
    ensures var r := Announce(s, caller, room, request);
            var n := |s.connected[room]|;
            var audience := Members(r.state.groups, room);
            && r.state.connected == s.connected
            && multiset(r.events)[Created(caller)] == (if n == 1 then 1 else 0)
            && multiset(r.events)[Joined(audience)] == (if n == 1 then 0 else 1)
  {
    var r := Announce(s, caller, room, request);
    var n := |s.connected[room]|;
    var audience := Members(r.state.groups, room);
    var closing := Log(audience, RoomSize(room, n));
    var greeting :=
      if n == 1 then [Created(caller), Log(audience, CreatedRoom(caller, room))]
      else [Joined(audience), Log(audience, JoinedRoom(caller, room))];
    assert r.events == [request, greeting[0], greeting[1], closing];
    CountOfFour(request, greeting[0], greeting[1], closing, Created(caller));
    CountOfFour(request, greeting[0], greeting[1], closing, Joined(audience));
  }

  /** A completed join sends exactly one `created` when the caller is alone
      in the room and exactly one `joined` otherwise. */
  lemma GreetsOnce(s: HubState, caller: ConnectionId, room: RoomName)
    requires JoinRoom(s, caller, room).outcome == Completed
    ensures var r := JoinRoom(s, caller, room);
            var n := |r.state.connected[room]|;
            var audience := Members(r.state.groups, room);
            && multiset(r.events)[Created(caller)] == (if n == 1 then 1 else 0)
            && multiset(r.events)[Joined(audience)] == (if n == 1 then 0 else 1)
  {
    var request := Log(Members(s.groups, room), JoinRequested(room, caller));
    AnnounceGreetsOnce(Registering(s, caller, room), caller, room, request);
  }

  /** The room-size line as broadcast ends with the count's decimal digits
      followed by " client(s)", and those digits denote the count. */
  lemma RoomSizeTextCarriesCount(room: RoomName, n: nat)
    ensures var t := Text(RoomSize(room, n));
            var tail := " client(s)";
            var digits := Decimal(n);
            && |digits| + |tail| <= |t|
            && t[|t| - |tail|..] == tail
            && t[|t| - |tail| - |digits|..|t| - |tail|] == digits
            && DigitsValue(t[|t| - |tail| - |digits|..|t| - |tail|]) == n
  {
    var tail := " client(s)";
    var digits := Decimal(n);
    var head := LogPrefix + "Room " + room + " now has ";
    var t := Text(RoomSize(room, n));
    assert t == head + digits + tail;
    assert t[|t| - |tail|..] == tail;
    assert t[|t| - |tail| - |digits|..|t| - |tail|] == digits;
  }

  /** A sole member that joins its room again is greeted as creator again. */
  lemma SoleMemberRejoinIsCreatedAgain(s: HubState, caller: ConnectionId, room: RoomName)
    requires room in s.connected && s.connected[room] == [caller]
    ensures var r := JoinRoom(s, caller, room);
            && Created(caller) in r.events
            && r.state.connected == s.connected
            && r.state.projects == s.projects
  {
    RepeatedJoinChangesNothing(s, caller, room);
    CreatorOrJoiner(s, caller, room);
  }

  /** A first join to a room without a project raises after the room's entry
      was made: the entry stays (empty if it was new), nothing else changes,
      and only the join-request log went out. */
  lemma NullProjectFault(s: HubState, caller: ConnectionId, room: RoomName)
    requires !Registered(s.connected, room, caller) && room !in s.projects
    ensures var r := JoinRoom(s, caller, room);
            && r.outcome == NullReference
            && room in r.state.connected
            && r.state.connected[room] == Roster(s.connected, room)
            && r.state.connected - {room} == s.connected - {room}
            && r.state.groups == s.groups
            && r.state.projects == s.projects
            && r.events == [Log(Members(s.groups, room), JoinRequested(room, caller))]
  {
  }

  // --------------------------------------------------------------- LeaveRoom

  /** Updating one key leaves the rest of a map as it was. */
  lemma UpdateKeepsOthers<K, V>(m: map<K, V>, k: K, v: V)
    ensures m[k := v] - {k} == m - {k}
  {
  }

  /** A leave touches only its own room's entry, always takes the caller out
      of the room's broadcast group, touches no other group and no project,
      and opens with the leave-request log to the group as it was. */
  lemma LeaveFrame(s: HubState, caller: ConnectionId, room: RoomName)
    ensures var r := LeaveRoom(s, caller, room);
            && r.state.connected - {room} == s.connected - {room}
            && Members(r.state.groups, room) == Members(s.groups, room) - {caller}
            && r.state.groups - {room} == s.groups - {room}
            && r.state.projects == s.projects
            && r.events != []
            && r.events[0] == Log(Members(s.groups, room), LeaveRequested(room, caller))
  {
    var r := LeaveRoom(s, caller, room);
    var audience := Members(s.groups, room);
    var request := Log(audience, LeaveRequested(room, caller));
    var groups := s.groups[room := audience - {caller}];
    UpdateKeepsOthers(s.groups, room, audience - {caller});
    if Registered(s.connected, room, caller) {
      var rest := RemoveFirst(s.connected[room], caller);
      var left := [request, Log(audience, LeftRoom(caller, room))];
      if rest == [] {
        assert r == Step(HubState(s.connected - {room}, groups, s.projects),
                         left + [Log(audience, RoomEmptied(room))], Completed);
        assert (s.connected - {room}) - {room} == s.connected - {room};
      } else {
        assert r == Step(HubState(s.connected[room := rest], groups, s.projects), left, Completed);
        UpdateKeepsOthers(s.connected, room, rest);
      }
    } else {
      assert r == Step(s.(groups := groups), [request], Completed);
    }
  }

  /** A leave by a connection not in the room's list leaves the registry as
      it was. */
  lemma LeaveByStrangerKeepsRegistry(s: HubState, caller: ConnectionId, room: RoomName)
    requires !Registered(s.connected, room, caller)
    ensures LeaveRoom(s, caller, room).state.connected == s.connected
  {
  }

  /** A leave by a member removes one occurrence of the caller and keeps
      every other member; with no duplicates the caller is gone. */
  lemma LeaveRemovesCaller(s: HubState, caller: ConnectionId, room: RoomName)
    requires Registered(s.connected, room, caller)
    ensures var r := LeaveRoom(s, caller, room);
            && multiset(Roster(r.state.connected, room)) == multiset(s.connected[room]) - multiset{caller}
            && (NoDuplicates(s.connected[room]) ==> caller !in Roster(r.state.connected, room))
  {
  }

  /** The room's entry is deleted, and the "now empty" line logged, exactly
      when the caller was its only member. */
  lemma LeaveEmptiesRoom(s: HubState, caller: ConnectionId, room: RoomName)
    ensures var r := LeaveRoom(s, caller, room);
            var emptied := room in s.connected && s.connected[room] == [caller];
            && (room in s.connected ==> (room !in r.state.connected <==> emptied))
            && (Log(Members(s.groups, room), RoomEmptied(room)) in r.events <==> emptied)
            && (forall e | e in r.events && e.Log? && e.line.RoomEmptied? :: emptied)
  {
  }

  /** The "now empty" line goes out once when the caller was the room's only
      member, and not at all otherwise. */
  lemma LeaveLogsEmptyOnce(s: HubState, caller: ConnectionId, room: RoomName)
    ensures var r := LeaveRoom(s, caller, room);
            var emptied := room in s.connected && s.connected[room] == [caller];
            multiset(r.events)[Log(Members(s.groups, room), RoomEmptied(room))] == (if emptied then 1 else 0)
  {
    var audience := Members(s.groups, room);
    var r := LeaveRoom(s, caller, room);
    var request := Log(audience, LeaveRequested(room, caller));
    var emptiedLine := Log(audience, RoomEmptied(room));
    if Registered(s.connected, room, caller) {
      var left := Log(audience, LeftRoom(caller, room));
      if s.connected[room] == [caller] {
        assert r.events == [request, left, emptiedLine];
        assert multiset(r.events) == multiset{request, left, emptiedLine};
      } else {
        assert r.events == [request, left];
        assert multiset(r.events) == multiset{request, left};
      }
    } else {
      assert r.events == [request];
    }
  }

  /** A leave never shrinks a collaborator list, so leaving and joining again
      appends the caller to the project's collaborators a second time. */
  lemma LeaveThenRejoinAppendsAgain(s: HubState, caller: ConnectionId, room: RoomName)
    requires NoDuplicates(Roster(s.connected, room))
    requires Registered(s.connected, room, caller) && room in s.projects
    ensures var s1 := LeaveRoom(s, caller, room).state;
            var s2 := JoinRoom(s1, caller, room).state;
            && s1.projects == s.projects
            && s2.projects[room].collaborators == s.projects[room].collaborators + [caller]
            && Count(s2.projects[room].collaborators, caller) == Count(s.projects[room].collaborators, caller) + 1
  {
    var s1 := LeaveRoom(s, caller, room).state;
    LeaveRemovesCaller(s, caller, room);
    assert !Registered(s1.connected, room, caller);
    FirstJoinAppendsOnce(s1, caller, room);
    var c := s.projects[room].collaborators;
    assert multiset(c + [caller]) == multiset(c) + multiset{caller};
  }

  // ----------------------------------------------------------- the invariant

  /** Under the invariant a room has an entry exactly when someone is in it. */
  lemma InvariantMeansOccupied(reg: Registry)
    requires RegistryInvariant(reg)
    ensures forall room :: room in reg <==> MemberCount(reg, room) > 0
  {
  }

  /** Adding a connection that is not yet listed keeps a list duplicate-free. */
  lemma AppendFresh(roster: seq<ConnectionId>, c: ConnectionId)
    requires NoDuplicates(roster) && c !in roster
    ensures NoDuplicates(roster + [c])
  {
    assert multiset(roster + [c]) == multiset(roster) + multiset{c};
  }

  /** A join that completes keeps the registry invariant. */
  lemma JoinPreservesInvariant(s: HubState, caller: ConnectionId, room: RoomName)
    requires RegistryInvariant(s.connected)
    requires JoinRoom(s, caller, room).outcome == Completed
    ensures RegistryInvariant(JoinRoom(s, caller, room).state.connected)
  {
    var r := JoinRoom(s, caller, room);
    JoinFrame(s, caller, room);
    if !Registered(s.connected, room, caller) {
      FirstJoinAppendsOnce(s, caller, room);
      AppendFresh(Roster(s.connected, room), caller);
    } else {
      RepeatedJoinChangesNothing(s, caller, room);
    }
    forall k | k in r.state.connected
      ensures r.state.connected[k] != [] && NoDuplicates(r.state.connected[k])
    {
      if k != room {
        assert k in r.state.connected - {room};
      }
    }
  }

  /** A leave keeps the registry invariant. */
  lemma LeavePreservesInvariant(s: HubState, caller: ConnectionId, room: RoomName)
    requires RegistryInvariant(s.connected)
    ensures RegistryInvariant(LeaveRoom(s, caller, room).state.connected)
  {
    var r := LeaveRoom(s, caller, room);
    LeaveFrame(s, caller, room);
    if Registered(s.connected, room, caller) {
      LeaveRemovesCaller(s, caller, room);
      LeaveEmptiesRoom(s, caller, room);
      if room in r.state.connected {
        var rest := RemoveFirst(s.connected[room], caller);
        assert r.state.connected[room] == rest;
      }
    }
    forall k | k in r.state.connected
      ensures r.state.connected[k] != [] && NoDuplicates(r.state.connected[k])
    {
      if k != room {
        assert k in r.state.connected - {room};
      }
    }
  }

  /** The corrected join keeps the registry invariant on every input. */
  lemma CheckedJoinPreservesInvariant(s: HubState, caller: ConnectionId, room: RoomName)
    requires RegistryInvariant(s.connected)
    ensures RegistryInvariant(JoinRoomChecked(s, caller, room).state.connected)
  {
    if Registered(s.connected, room, caller) || room in s.projects {
      JoinPreservesInvariant(s, caller, room);
    }
  }

  /** The join as written breaks the invariant whenever it faults on a room
      that had no entry: the room is left with an empty entry. */
  lemma FaultLeavesEmptyRoom(s: HubState, caller: ConnectionId, room: RoomName)
    requires room !in s.connected && room !in s.projects
    ensures var r := JoinRoom(s, caller, room);
            && r.outcome == NullReference
            && room in r.state.connected && r.state.connected[room] == []
            && !RegistryInvariant(r.state.connected)
  {
    NullProjectFault(s, caller, room);
  }

  /** A concrete case: on a hub with no rooms and no projects, a join to room
      "r1" faults and leaves "r1" registered with nobody in it. */
  lemma NullProjectLeavesEmptyRoom()
    ensures var s := HubState(map[], map[], map[]);
            var r := JoinRoom(s, "c1", "r1");
            && RegistryInvariant(s.connected)
            && r.outcome == NullReference
            && r.state.connected == map["r1" := []]
            && !RegistryInvariant(r.state.connected)
  {
    var s := HubState(map[], map[], map[]);
    FaultLeavesEmptyRoom(s, "c1", "r1");
    NullProjectFault(s, "c1", "r1");
    var r := JoinRoom(s, "c1", "r1");
    assert r.state.connected.Keys == {"r1"} by {
      assert r.state.connected - {"r1"} == s.connected - {"r1"};
    }
  }

  // --------------------------------------------------------- call sequences

  /** A hub call by one connection. */
  datatype Call =
    | Join(caller: ConnectionId, room: RoomName)
    | Leave(caller: ConnectionId, room: RoomName)
    | Send(caller: ConnectionId, room: RoomName, payload: string)

  /** One call on the hub with the corrected join. */
  function Dispatch(s: HubState, call: Call): Step {
    match call
    case Join(c, room) => JoinRoomChecked(s, c, room)
    case Leave(c, room) => LeaveRoom(s, c, room)
    case Send(c, room, payload) => SendMessage(s, c, room, payload)
  }

  /** One call on the hub as written. */
  function DispatchAsWritten(s: HubState, call: Call): Step {
    match call
    case Join(c, room) => JoinRoom(s, c, room)
    case Leave(c, room) => LeaveRoom(s, c, room)
    case Send(c, room, payload) => SendMessage(s, c, room, payload)
  }

  /** The calls handled one at a time, in order: the final state and every
      event emitted. */
  datatype Trace = Trace(state: HubState, events: seq<Event>)

  function Run(s: HubState, calls: seq<Call>): Trace
    decreases |calls|
  {
    if calls == [] then Trace(s, [])
    else
      var first := Dispatch(s, calls[0]);
      var rest := Run(first.state, calls[1..]);
      Trace(rest.state, first.events + rest.events)
  }

  /** Any sequence of joins, leaves and messages on the corrected hub keeps
      the registry invariant, so a room is registered exactly while it has
      members. */
  lemma {:induction false} RunPreservesInvariant(s: HubState, calls: seq<Call>)
    requires RegistryInvariant(s.connected)
    ensures RegistryInvariant(Run(s, calls).state.connected)
    ensures forall room :: room in Run(s, calls).state.connected <==>
                           MemberCount(Run(s, calls).state.connected, room) > 0
    decreases |calls|
  {
    if calls != [] {
      var first := Dispatch(s, calls[0]);
      match calls[0] {
        case Join(c, room) => CheckedJoinPreservesInvariant(s, c, room);
        case Leave(c, room) => LeavePreservesInvariant(s, c, room);
        case Send(c, room, payload) =>
      }
      RunPreservesInvariant(first.state, calls[1..]);
    }
    InvariantMeansOccupied(Run(s, calls).state.connected);
  }

  /** `q` extends every collaborator list of `p` and keeps its projects. */
  ghost predicate CollaboratorsExtend(p: Store, q: Store) {
    forall k | k in p :: k in q && p[k].collaborators <= q[k].collaborators
  }

  /** One call on the hub as written never removes a project or a
      collaborator. */
  lemma StepExtendsCollaborators(s: HubState, call: Call)
    ensures CollaboratorsExtend(s.projects, DispatchAsWritten(s, call).state.projects)
  {
    match call
    case Join(c, room) =>
      if !Registered(s.connected, room, c) && room in s.projects {
        FirstJoinAppendsOnce(s, c, room);
      } else if Registered(s.connected, room, c) {
        RepeatedJoinChangesNothing(s, c, room);
      } else {
        NullProjectFault(s, c, room);
      }
    case Leave(c, room) =>
    case Send(c, room, payload) =>
  }

  /** The hub as written, applied call by call: a join that faults fails
      only that call, and the calls after it run on the state it left
      behind, empty room entry included. */
  function RunAsWritten(s: HubState, calls: seq<Call>): Trace
    decreases |calls|
  {
    if calls == [] then Trace(s, [])
    else
      var first := DispatchAsWritten(s, calls[0]);
      var rest := RunAsWritten(first.state, calls[1..]);
      Trace(rest.state, first.events + rest.events)
  }

  /** Collaborator lists only grow: over any call sequence on the hub as written each
      project's list is a prefix of its list afterwards, so a list is a
      historical join log and never a presence list. */
  lemma {:induction false} RunExtendsCollaborators(s: HubState, calls: seq<Call>)
    ensures CollaboratorsExtend(s.projects, RunAsWritten(s, calls).state.projects)
    decreases |calls|
  {
    if calls != [] {
      var first := DispatchAsWritten(s, calls[0]);
      StepExtendsCollaborators(s, calls[0]);
      RunExtendsCollaborators(first.state, calls[1..]);
    }
  }

  /** No room's list on the hub names a connection twice. Unlike the
      registry invariant, this survives the join as written. */
  ghost predicate AllNoDuplicates(reg: Registry) {
    forall room | room in reg :: NoDuplicates(reg[room])
  }

  /** A join as written, faulting or not, lists nobody twice. */
  lemma JoinKeepsNoDuplicates(s: HubState, caller: ConnectionId, room: RoomName)
    requires AllNoDuplicates(s.connected)
    ensures AllNoDuplicates(JoinRoom(s, caller, room).state.connected)
  {
    var after := JoinRoom(s, caller, room).state.connected;
    JoinFrame(s, caller, room);
    if Registered(s.connected, room, caller) {
      RepeatedJoinChangesNothing(s, caller, room);
    } else if room in s.projects {
      FirstJoinAppendsOnce(s, caller, room);
      AppendFresh(Roster(s.connected, room), caller);
    } else {
      NullProjectFault(s, caller, room);
    }
    forall k | k in after
      ensures NoDuplicates(after[k])
    {
      if k != room {
        assert k in after - {room};
      }
    }
  }

  /** A leave lists nobody twice. */
  lemma LeaveKeepsNoDuplicates(s: HubState, caller: ConnectionId, room: RoomName)
    requires AllNoDuplicates(s.connected)
    ensures AllNoDuplicates(LeaveRoom(s, caller, room).state.connected)
  {
    var after := LeaveRoom(s, caller, room).state.connected;
    LeaveFrame(s, caller, room);
    if Registered(s.connected, room, caller) && room in after {
      LeaveEmptiesRoom(s, caller, room);
      var rest := RemoveFirst(s.connected[room], caller);
      assert after[room] == rest;
    }
    forall k | k in after
      ensures NoDuplicates(after[k])
    {
      if k != room {
        assert k in after - {room};
      }
    }
  }

  /** No call on the hub as written, faulting or not, lists a connection
      twice in one room. */
  lemma StepKeepsNoDuplicates(s: HubState, call: Call)
    requires AllNoDuplicates(s.connected)
    ensures AllNoDuplicates(DispatchAsWritten(s, call).state.connected)
  {
    match call
    case Join(c, room) => JoinKeepsNoDuplicates(s, c, room);
    case Leave(c, room) => LeaveKeepsNoDuplicates(s, c, room);
    case Send(c, room, payload) =>
  }

  /** Every state the hub as written reaches from a duplicate-free registry
      is duplicate-free, so the precondition of `JoinRegistersOnce` and
      `LeaveThenRejoinAppendsAgain` holds throughout. */
  lemma {:induction false} RunAsWrittenKeepsNoDuplicates(s: HubState, calls: seq<Call>)
    requires AllNoDuplicates(s.connected)
    ensures AllNoDuplicates(RunAsWritten(s, calls).state.connected)
    decreases |calls|
  {
    if calls != [] {
      StepKeepsNoDuplicates(s, calls[0]);
      RunAsWrittenKeepsNoDuplicates(DispatchAsWritten(s, calls[0]).state, calls[1..]);
    }
  }
}

=== FILE: listing.dfy ===
/** The paginated project listing both controllers serve: the caller's
    projects, most recently modified first, cut into 1-based pages, each row
    reduced to a summary. */
module Listing {
  import opened ProjectModel
  import opened Http

  /** One row of a listing page. */
  datatype Summary = Summary(
    id: string,
    name: string,
    collaboratorsCount: nat,
    imagePreview: Option<string>,
    createdAt: Timestamp,
    lastUpdatedAt: Timestamp)

  function Summarize(p: Project): Summary {
    Summary(p.id, p.name, |p.collaborators|, p.previewImage,
            p.createdDate, p.lastModifiedDate)
  }

  /** Most recently modified first; ties may come in any order. */
  predicate SortedByRecency(s: seq<Project>) {
    forall i, j | 0 <= i < j < |s| :: s[i].lastModifiedDate >= s[j].lastModifiedDate
  }

  /** A sorted list stays sorted under a new head that is at least as
      recent as its old head. */
  lemma ConsSorted(x: Project, s: seq<Project>)
    requires SortedByRecency(s)
    requires s != [] ==> x.lastModifiedDate >= s[0].lastModifiedDate
    ensures SortedByRecency([x] + s)
  {
    var r := [x] + s;
    forall i, j | 0 <= i < j < |r|
      ensures r[i].lastModifiedDate >= r[j].lastModifiedDate
    {
      if i == 0 && j > 1 {
        assert r[1] == s[0] && r[j] == s[j - 1];
      }
    }
  }

  /** Putting back the head of a sorted list in front of a sorted insertion
      into its tail inserts into the whole list. */
  lemma InsertBelowHead(p: Project, s: seq<Project>, rest: seq<Project>)
    requires s != [] && SortedByRecency(s) && p.lastModifiedDate < s[0].lastModifiedDate
    requires SortedByRecency(rest)
    requires multiset(rest) == multiset(s[1..]) + multiset{p}
    requires |rest| == |s|
    requires rest[0] == p || (s[1..] != [] && rest[0] == s[1..][0])
    ensures var r := [s[0]] + rest;
            && SortedByRecency(r)
            && multiset(r) == multiset(s) + multiset{p}
            && forall x | x in r :: x == p || x in s
  {
    assert s == [s[0]] + s[1..];
    ConsSorted(s[0], rest);
    var r := [s[0]] + rest;
    forall x | x in r
      ensures x == p || x in s
    {
      if x != s[0] {
        assert x in multiset(rest);
      }
    }
  }

  function InsertByRecency(p: Project, s: seq<Project>): (r: seq<Project>)
    requires SortedByRecency(s)
    ensures SortedByRecency(r)
    ensures multiset(r) == multiset(s) + multiset{p}
    ensures |r| == |s| + 1
    ensures forall x | x in r :: x == p || x in s
    ensures r[0] == p || (s != [] && r[0] == s[0])
  {
    if s == [] then [p]
    else if p.lastModifiedDate >= s[0].lastModifiedDate then
      ConsSorted(p, s);
      [p] + s
    else
      var rest := InsertByRecency(p, s[1..]);
      InsertBelowHead(p, s, rest);
      [s[0]] + rest
  }

  /** `OrderByDescending(p => p.LastModifiedDate)`: a rearrangement of the
      rows that is sorted by recency. */
  function SortByRecency(s: seq<Project>): (r: seq<Project>)
    ensures SortedByRecency(r)
    ensures multiset(r) == multiset(s)
    ensures |r| == |s|
  {
    if s == [] then []
    else
      assert s == [s[0]] + s[1..];
      InsertByRecency(s[0], SortByRecency(s[1..]))
  }

  /** The page the listing returns when the query string names none, and
      the number of rows it holds by default. */
  const DefaultPageNumber: int := 1
  const DefaultPageSize: int := 10

  /** The query parameters the model covers: 1-based pages of a
      non-negative size. */
  predicate ValidPage(pageNumber: int, pageSize: int) {
    1 <= pageNumber && 0 <= pageSize
  }

  /** `Skip((pageNumber - 1) * pageSize)`: the number of rows before the page. */
  function Offset(pageNumber: int, pageSize: int): nat
    requires ValidPage(pageNumber, pageSize)
  {
    (pageNumber - 1) * pageSize
  }

  /** `Skip(...).Take(pageSize)` on an ordered sequence. */
  function Window<T>(s: seq<T>, pageNumber: int, pageSize: int): (w: seq<T>)
    requires ValidPage(pageNumber, pageSize)
    ensures |w| <= pageSize
    ensures Offset(pageNumber, pageSize) >= |s| ==> w == []
    ensures Offset(pageNumber, pageSize) < |s| ==>
              |w| == if |s| - Offset(pageNumber, pageSize) < pageSize
                     then |s| - Offset(pageNumber, pageSize) else pageSize
    ensures forall i | 0 <= i < |w| :: w[i] == s[Offset(pageNumber, pageSize) + i]
  {
    var skip := Offset(pageNumber, pageSize);
    if skip >= |s| then []
    else if |s| - skip < pageSize then s[skip..]
    else s[skip..skip + pageSize]
  }

  /** Pages 1 to n of size `size`, one after the other. */
  function Pages<T>(s: seq<T>, size: nat, n: nat): seq<T> {
    if n == 0 then [] else Pages(s, size, n - 1) + Window(s, n, size)
  }

  /** Reading pages 1..n in turn yields exactly the first n*size rows: pages
      neither overlap nor skip a row. */
  lemma {:induction false} PagesArePrefix<T>(s: seq<T>, size: nat, n: nat)
    ensures n * size <= |s| ==> Pages(s, size, n) == s[..n * size]
    ensures n * size > |s| ==> Pages(s, size, n) == s
  {
    if n > 0 {
      PagesArePrefix(s, size, n - 1);
      var before := (n - 1) * size;
      var after := n * size;
      PageStep(n, size);
      var prev := Pages(s, size, n - 1);
      WindowSlice(s, n, size);
      if before >= |s| {
        assert prev == s;
      } else if after <= |s| {
        assert prev == s[..before];
        assert s[..before] + s[before..after] == s[..after];
      } else {
        assert prev == s[..before];
        assert s[..before] + s[before..] == s;
      }
    }
  }

  lemma PageStep(n: nat, size: nat)
    requires 0 < n
    ensures n * size == (n - 1) * size + size
    ensures Offset(n, size) == (n - 1) * size
  {
  }

  lemma WindowSlice<T>(s: seq<T>, pageNumber: int, pageSize: int)
    requires ValidPage(pageNumber, pageSize)
    ensures var skip := Offset(pageNumber, pageSize);
            var w := Window(s, pageNumber, pageSize);
            && (skip >= |s| ==> w == [])
            && (skip < |s| && skip + pageSize <= |s| ==> w == s[skip..skip + pageSize])
            && (skip < |s| && skip + pageSize > |s| ==> w == s[skip..])
  {
  }

  /** With neither page parameter given, the page is the first
      `DefaultPageSize` rows, or all of them when there are fewer. */
  lemma DefaultWindow<T>(s: seq<T>)
    ensures Window(s, DefaultPageNumber, DefaultPageSize)
              == if |s| <= DefaultPageSize then s else s[..DefaultPageSize]
  {
    WindowSlice(s, DefaultPageNumber, DefaultPageSize);
    if |s| == DefaultPageSize {
      assert s[0..DefaultPageSize] == s;
    } else if |s| > DefaultPageSize {
      assert s[0..DefaultPageSize] == s[..DefaultPageSize];
    } else {
      assert s[0..] == s;
    }
  }

  /** Every row of the ordered listing appears on the page its position
      predicts: row i is entry i % size of page i / size + 1. */
  lemma RowOnItsPage<T>(s: seq<T>, size: nat, i: nat)
    requires 0 < size && i < |s|
    ensures var w := Window(s, i / size + 1, size);
            i % size < |w| && w[i % size] == s[i]
  {
    var page := i / size + 1;
    assert Offset(page, size) == (i / size) * size;
    assert (i / size) * size + i % size == i;
  }

  /** The action result for one page: an empty page is "not found",
      otherwise the page's rows as summaries in order. */
  function PageResponse(page: seq<Project>): (r: Response<seq<Summary>>)
    ensures r.NotFound? <==> page == []
    ensures r.NotFound? ==> r.message == NoProjectsFound
    ensures r.Ok? ==> |r.body| == |page|
    ensures r.Ok? ==> forall i | 0 <= i < |page| ::
              && r.body[i].id == page[i].id
              && r.body[i].name == page[i].name
              && r.body[i].collaboratorsCount == |page[i].collaborators|
              && r.body[i].imagePreview == page[i].previewImage
              && r.body[i].createdAt == page[i].createdDate
              && r.body[i].lastUpdatedAt == page[i].lastModifiedDate
  {
    if page == [] then NotFound(NoProjectsFound)
    else Ok(seq(|page|, i requires 0 <= i < |page| => Summarize(page[i])))
  }

  /** `Where(p => p.UserId == owner)`: `rows` holds every stored project of
      `owner` exactly once and nothing else. */
  ghost predicate Enumerates(store: Store, owner: string, rows: seq<Project>) {
    forall p :: multiset(rows)[p] == if Stored(store, p) && p.userId == owner then 1 else 0
  }

  /** Enumerates the owner's projects, in no particular order. */
  method OwnedProjects(store: Store, owner: string) returns (rows: seq<Project>)
    ensures Enumerates(store, owner, rows)
  {
    rows := [];
    var rest := store.Keys;
    while rest != {}
      invariant rest <= store.Keys
      invariant forall p :: multiset(rows)[p] ==
                  if Stored(store, p) && p.userId == owner && p.id !in rest then 1 else 0
      decreases rest
    {
      var k :| k in rest;
      if store[k].userId == owner {
        rows := rows + [store[k]];
      }
      rest := rest - {k};
    }
  }

  /** The whole listing query: the owner's projects sorted by recency
      (`ordered`), then the requested page of it as an action result. */
  method ListPage(store: Store, owner: string, pageNumber: int, pageSize: int)
    returns (ordered: seq<Project>, r: Response<seq<Summary>>)
    requires ValidPage(pageNumber, pageSize)
    ensures Enumerates(store, owner, ordered)
    ensures SortedByRecency(ordered)
    ensures r == PageResponse(Window(ordered, pageNumber, pageSize))
  {
    var rows := OwnedProjects(store, owner);
    ordered := SortByRecency(rows);
    r := PageResponse(Window(ordered, pageNumber, pageSize));
  }

  /** A listing holds exactly the owner's stored projects. */
  lemma EnumeratedRows(store: Store, owner: string, rows: seq<Project>, p: Project)
    requires Enumerates(store, owner, rows)
    ensures p in rows <==> Stored(store, p) && p.userId == owner
  {
    assert p in rows <==> multiset(rows)[p] > 0;
  }
}

=== FILE: project_controller.dfy ===
/** The unauthenticated project controller: new projects take their owner
    from the request body, the listing filters on the `UserId` header, and
    reading, deleting and saving match on the project id alone, for any
    caller. */
module ProjectController {
  import opened ProjectModel
  import opened Http
  import Listing

  const ListingHeader: string := "UserId"

  /** Body of `POST create`; the owner is a body field. */
  datatype CreateModel = CreateModel(name: string, width: Int32, height: Int32, userId: string)

  /** Body of `POST upload`; the owner is a body field. */
  datatype UploadModel = UploadModel(name: string, width: Int32, height: Int32,
                                     userId: string, image: string)

  /** Body of `PUT {imageId}`. */
  datatype SaveModel = SaveModel(image: string, name: string)

  /** Adds one blank project owned by whoever the body names. */
  function Create(store: Store, model: CreateModel,
                  images: ImageService, freshId: string,
                  created: Timestamp, modified: Timestamp): (r: Reply<string>)
    requires freshId !in store
    ensures r.response == Ok(freshId)
    ensures r.store.Keys == store.Keys + {freshId}
    ensures forall k | k in store :: r.store[k] == store[k]
    ensures var p := r.store[freshId];
            && p.userId == model.userId
            && p.name == model.name && p.width == model.width && p.height == model.height
            && p.image == Some(images.createImage(model.width, model.height))
            && p.previewImage == Some(images.compressImage(images.createImage(model.width, model.height)))
            && p.collaborators == []
            && p.createdDate == created && p.lastModifiedDate == modified
  {
    var image := images.createImage(model.width, model.height);
    var p := NewProject(freshId, model.name, model.userId, model.width, model.height,
                        created, modified, image, images);
    Reply(Put(store, p), Ok(freshId))
  }

  /** Adds one project holding the uploaded image, owned by whoever the body names. */
  function Upload(store: Store, model: UploadModel,
                  images: ImageService, freshId: string,
                  created: Timestamp, modified: Timestamp): (r: Reply<string>)
    requires freshId !in store
    ensures r.response == Ok(freshId)
    ensures r.store.Keys == store.Keys + {freshId}
    ensures forall k | k in store :: r.store[k] == store[k]
    ensures var p := r.store[freshId];
            && p.userId == model.userId
            && p.name == model.name && p.width == model.width && p.height == model.height
            && p.image == Some(model.image)
            && p.previewImage == Some(images.compressImage(model.image))
            && p.collaborators == []
            && p.createdDate == created && p.lastModifiedDate == modified
  {
    var p := NewProject(freshId, model.name, model.userId, model.width, model.height,
                        created, modified, model.image, images);
    Reply(Put(store, p), Ok(freshId))
  }

  /** One page of the projects of the user the `UserId` header names, with
      the same page defaults. */
  method GetAllProjects(store: Store, headers: Headers, pageNumber: Option<int>, pageSize: Option<int>)
    returns (ordered: seq<Project>, r: Response<seq<Listing.Summary>>)
    requires Listing.ValidPage(QueryInt(pageNumber, Listing.DefaultPageNumber),
                               QueryInt(pageSize, Listing.DefaultPageSize))
    ensures Listing.Enumerates(store, HeaderValue(headers, ListingHeader), ordered)
    ensures Listing.SortedByRecency(ordered)
    ensures r == Listing.PageResponse(Listing.Window(ordered, QueryInt(pageNumber, Listing.DefaultPageNumber),
                                                     QueryInt(pageSize, Listing.DefaultPageSize)))
    ensures pageNumber.None? && pageSize.None? ==>
              r == Listing.PageResponse(if |ordered| <= Listing.DefaultPageSize then ordered
                                        else ordered[..Listing.DefaultPageSize])
  {
    var number := QueryInt(pageNumber, Listing.DefaultPageNumber);
    var size := QueryInt(pageSize, Listing.DefaultPageSize);
    ordered, r := Listing.ListPage(store, HeaderValue(headers, ListingHeader), number, size);
    if pageNumber.None? && pageSize.None? {
      Listing.DefaultWindow(ordered);
    }
  }

  /** Name and image of project `id`, whoever owns it. */
  function GetProject(store: Store, id: string): (r: Response<ProjectView>)
    ensures r.Ok? <==> id in store
    ensures r.Ok? ==> r.body.name == store[id].name && r.body.image == store[id].image
    ensures r.NotFound? ==> r.message == ProjectNotFound
  {
    if id in store then Ok(ProjectView(store[id].name, store[id].image))
    else NotFound(ProjectNotFound)
  }

  /** Removes project `id`, whoever owns it, and nothing else. */
  function DeleteProject(store: Store, id: string): (r: Reply<string>)
    ensures r.response.Ok? <==> id in store
    ensures r.response.Ok? ==> r.response.body == ProjectDeleted
    ensures r.store.Keys == store.Keys - {id}
    ensures forall k | k in r.store :: r.store[k] == store[k]
    ensures r.response.NotFound? ==> r.store == store && r.response.message == ProjectNotFound
  {
    if id in store then Reply(store - {id}, Ok(ProjectDeleted))
    else Reply(store, NotFound(ProjectNotFound))
  }

  /** Replaces name and image of project `imageId`, whoever owns it. */
  function SaveProject(store: Store, imageId: string, model: SaveModel,
                       images: ImageService, now: Timestamp): (r: Reply<string>)
    ensures r.response.Ok? <==> imageId in store
    ensures r.response.Ok? ==> r.response.body == ProjectSavedMessage
    ensures r.store.Keys == store.Keys
    ensures forall k | k in store && k != imageId :: r.store[k] == store[k]
    ensures r.response.Ok? ==>
              var before, after := store[imageId], r.store[imageId];
              && after.name == model.name && after.image == Some(model.image)
              && after.previewImage == Some(images.compressImage(model.image))
              && after.lastModifiedDate == now
              && after.id == before.id && after.userId == before.userId
              && after.width == before.width && after.height == before.height
              && after.createdDate == before.createdDate
              && after.collaborators == before.collaborators
    ensures r.response.NotFound? ==> r.store == store && r.response.message == ProjectNotFound
  {
    if imageId in store then
      var p := Saved(store[imageId], model.name, model.image, images, now);
      Reply(Put(store, p), Ok(ProjectSavedMessage))
    else Reply(store, NotFound(ProjectNotFound))
  }
}

=== FILE: project_model.dfy ===
/** The persisted Project record shared by the two REST controllers and the
    collaboration hub, and the table of projects keyed by their id. */
module ProjectModel {

  /** A nullable reference (`string?` in the record). */
  datatype Option<+T> = None | Some(value: T)

  const INT32_MIN: int := -0x8000_0000
  const INT32_MAX: int := 0x7fff_ffff

  /** The 32-bit `int` of the record's Width and Height. */
  type Int32 = x: int | INT32_MIN <= x <= INT32_MAX

  /** A `DateTime` value, abstracted to its tick count. */
  type Timestamp = int

  /** One row of the Projects table. Name, UserId, Width, Height and the two
      dates are required; Image and PreviewImage may be absent. */
  datatype Project = Project(
    id: string,
    name: string,
    userId: string,
    width: Int32,
    height: Int32,
    collaborators: seq<string>,
    createdDate: Timestamp,
    lastModifiedDate: Timestamp,
    image: Option<string>,
    previewImage: Option<string>)

  /** Every entry is filed under its own project's id. */
  predicate Keyed(m: map<string, Project>) {
    forall k | k in m :: m[k].id == k
  }

  /** The Projects table: `Id` is the primary key, so there is at most one
      project per id, and since `Id` is init-only no update can move a
      project to another key. */
  type Store = m: map<string, Project> | Keyed(m) witness map[]

  /** `p` is the row stored under its own id. */
  predicate Stored(store: Store, p: Project) {
    p.id in store && store[p.id] == p
  }

  /** The image routines of the project service, whose implementation is not
      part of this model: `createImage` draws a blank canvas of the given
      size and `compressImage` derives the preview. */
  datatype ImageService = ImageService(
    createImage: (Int32, Int32) -> string,
    compressImage: string -> string)

  /** A project as built by an object initializer in the controllers: the
      collaborator list starts out empty. */
  function NewProject(id: string, name: string, userId: string,
                      width: Int32, height: Int32,
                      created: Timestamp, modified: Timestamp,
                      image: string, images: ImageService): (p: Project)
    ensures p.collaborators == []
    ensures p.id == id && p.userId == userId && p.name == name
    ensures p.width == width && p.height == height
    ensures p.createdDate == created && p.lastModifiedDate == modified
    ensures p.image == Some(image)
    ensures p.previewImage == Some(images.compressImage(image))
  {
    Project(id, name, userId, width, height, [], created, modified,
            Some(image), Some(images.compressImage(image)))
  }

  /** The edit a save applies to a stored project: new image, new name,
      regenerated preview and a fresh modification time. */
  function Saved(p: Project, name: string, image: string,
                 images: ImageService, now: Timestamp): (q: Project)
    ensures q.image == Some(image) && q.name == name
    ensures q.previewImage == Some(images.compressImage(image))
    ensures q.lastModifiedDate == now
    // nothing else changes: restoring the four edited fields gives back p
    ensures q.(image := p.image, name := p.name,
               previewImage := p.previewImage,
               lastModifiedDate := p.lastModifiedDate) == p
  {
    p.(image := Some(image), name := name,
       previewImage := Some(images.compressImage(image)),
       lastModifiedDate := now)
  }

  /** Putting a project under its own id keeps the table keyed, replaces
      exactly that entry and leaves every other entry alone. */
  function Put(store: Store, p: Project): (s: Store)
    ensures s.Keys == store.Keys + {p.id}
    ensures Stored(s, p)
    ensures forall k | k in store && k != p.id :: s[k] == store[k]
  {
    store[p.id := p]
  }
}

=== FILE: projects_controller.dfy ===
/** The authenticated project controller: the owner of every project it
    creates, lists, reads, deletes or saves is the caller named by the
    `X-UserId` header the gateway injects. */
module ProjectsController {
  import opened ProjectModel
  import opened Http
  import Listing

  const OwnerHeader: string := "X-UserId"

  /** The caller's user id. */
  function Owner(headers: Headers): string {
    HeaderValue(headers, OwnerHeader)
  }

  /** Body of `POST create`. */
  datatype CreateModel = CreateModel(name: string, width: Int32, height: Int32)

  /** Body of `POST upload`. */
  datatype UploadModel = UploadModel(name: string, width: Int32, height: Int32, image: string)

  /** Body of `PUT {imageId}`. */
  datatype SaveModel = SaveModel(image: string, name: string)

  /** The lookup every single-project action does: matching id AND owner. */
  predicate OwnsProject(store: Store, headers: Headers, id: string) {
    id in store && store[id].userId == Owner(headers)
  }

  /** Adds one blank project of the requested size, owned by the caller,
      under the id the database generates (`freshId`); `created` and
      `modified` are the two clock readings. */
  function Create(store: Store, headers: Headers, model: CreateModel,
                  images: ImageService, freshId: string,
                  created: Timestamp, modified: Timestamp): (r: Reply<string>)
    requires freshId !in store
    ensures r.response == Ok(freshId)
    ensures r.store.Keys == store.Keys + {freshId}
    ensures forall k | k in store :: r.store[k] == store[k]
    ensures var p := r.store[freshId];
            && p.userId == Owner(headers)
            && p.name == model.name && p.width == model.width && p.height == model.height
            && p.image == Some(images.createImage(model.width, model.height))
            && p.previewImage == Some(images.compressImage(images.createImage(model.width, model.height)))
            && p.collaborators == []
            && p.createdDate == created && p.lastModifiedDate == modified
  {
    var image := images.createImage(model.width, model.height);
    var p := NewProject(freshId, model.name, Owner(headers), model.width, model.height,
                        created, modified, image, images);
    Reply(Put(store, p), Ok(freshId))
  }

  /** Adds one project holding the uploaded image, owned by the caller. */
  function Upload(store: Store, headers: Headers, model: UploadModel,
                  images: ImageService, freshId: string,
                  created: Timestamp, modified: Timestamp): (r: Reply<string>)
    requires freshId !in store
    ensures r.response == Ok(freshId)
    ensures r.store.Keys == store.Keys + {freshId}
    ensures forall k | k in store :: r.store[k] == store[k]
    ensures var p := r.store[freshId];
            && p.userId == Owner(headers)
            && p.name == model.name && p.width == model.width && p.height == model.height
            && p.image == Some(model.image)
            && p.previewImage == Some(images.compressImage(model.image))
            && p.collaborators == []
            && p.createdDate == created && p.lastModifiedDate == modified
  {
    var p := NewProject(freshId, model.name, Owner(headers), model.width, model.height,
                        created, modified, model.image, images);
    Reply(Put(store, p), Ok(freshId))
  }

  /** One page of the caller's projects, most recently modified first;
      `ordered` is the full ordered listing the page is cut from. A page
      number or size the query string leaves out takes its default. */
  method GetAllProjects(store: Store, headers: Headers, pageNumber: Option<int>, pageSize: Option<int>)
    returns (ordered: seq<Project>, r: Response<seq<Listing.Summary>>)
    requires Listing.ValidPage(QueryInt(pageNumber, Listing.DefaultPageNumber),
                               QueryInt(pageSize, Listing.DefaultPageSize))
    ensures Listing.Enumerates(store, Owner(headers), ordered)
    ensures Listing.SortedByRecency(ordered)
    ensures r == Listing.PageResponse(Listing.Window(ordered, QueryInt(pageNumber, Listing.DefaultPageNumber),
                                                     QueryInt(pageSize, Listing.DefaultPageSize)))
    ensures pageNumber.None? && pageSize.None? ==>
              r == Listing.PageResponse(if |ordered| <= Listing.DefaultPageSize then ordered
                                        else ordered[..Listing.DefaultPageSize])
  {
    var number := QueryInt(pageNumber, Listing.DefaultPageNumber);
    var size := QueryInt(pageSize, Listing.DefaultPageSize);
    ordered, r := Listing.ListPage(store, Owner(headers), number, size);
    if pageNumber.None? && pageSize.None? {
      Listing.DefaultWindow(ordered);
    }
  }

  /** Name and image of the caller's project `id`. */
  function GetProject(store: Store, headers: Headers, id: string): (r: Response<ProjectView>)
    ensures r.Ok? <==> OwnsProject(store, headers, id)
    ensures r.Ok? ==> r.body.name == store[id].name && r.body.image == store[id].image
    ensures r.NotFound? ==> r.message == ProjectNotFound
  {
    if OwnsProject(store, headers, id) then Ok(ProjectView(store[id].name, store[id].image))
    else NotFound(ProjectNotFound)
  }

  /** Removes the caller's project `id` and nothing else. */
  function DeleteProject(store: Store, headers: Headers, id: string): (r: Reply<string>)
    ensures r.response.Ok? <==> OwnsProject(store, headers, id)
    ensures r.response.Ok? ==> r.response.body == ProjectDeleted
    ensures r.response.Ok? ==> r.store.Keys == store.Keys - {id}
    ensures forall k | k in store && k != id :: k in r.store && r.store[k] == store[k]
    ensures r.response.NotFound? ==> r.store == store && r.response.message == ProjectNotFound
  {
    if OwnsProject(store, headers, id) then Reply(store - {id}, Ok(ProjectDeleted))
    else Reply(store, NotFound(ProjectNotFound))
  }

  /** Replaces name and image of the caller's project `imageId`, regenerates
      its preview and stamps it with `now`. */
  function SaveProject(store: Store, headers: Headers, imageId: string, model: SaveModel,
                       images: ImageService, now: Timestamp): (r: Reply<string>)
    ensures r.response.Ok? <==> OwnsProject(store, headers, imageId)
    ensures r.response.Ok? ==> r.response.body == ProjectSavedMessage
    ensures r.store.Keys == store.Keys
    ensures forall k | k in store && k != imageId :: r.store[k] == store[k]
    ensures r.response.Ok? ==>
              var before, after := store[imageId], r.store[imageId];
              && after.name == model.name && after.image == Some(model.image)
              && after.previewImage == Some(images.compressImage(model.image))
              && after.lastModifiedDate == now
              && after.id == before.id && after.userId == before.userId
              && after.width == before.width && after.height == before.height
              && after.createdDate == before.createdDate
              && after.collaborators == before.collaborators
    ensures r.response.NotFound? ==> r.store == store && r.response.message == ProjectNotFound
  {
    if OwnsProject(store, headers, imageId) then
      var p := Saved(store[imageId], model.name, model.image, images, now);
      Reply(Put(store, p), Ok(ProjectSavedMessage))
    else Reply(store, NotFound(ProjectNotFound))
  }
}

=== FILE: signaling_hub.dfy ===
/** The real-time collaboration hub: a process-wide registry from room name
    (a project id) to the connections present in that room, the broadcast
    groups of the messaging framework, and the projects' persisted
    collaborator lists. Each hub call is one atomic transition that yields
    the next state and the events it emits, in emission order. */
module SignalingHub {
  import opened ProjectModel

  type ConnectionId = string
  type RoomName = string

  /** `ConnectedClients`: room name to the connection ids in it, in join order. */
  type Registry = map<RoomName, seq<ConnectionId>>

  /** Broadcast-group membership kept by the messaging framework. */
  type Groups = map<RoomName, set<ConnectionId>>

  datatype HubState = HubState(connected: Registry, groups: Groups, projects: Store)

  /** The registry's list for `room`, empty when the room has no entry. */
  function Roster(reg: Registry, room: RoomName): seq<ConnectionId> {
    if room in reg then reg[room] else []
  }

  /** `ConnectedClients[room].Count`, zero for a room without an entry. */
  function MemberCount(reg: Registry, room: RoomName): nat {
    |Roster(reg, room)|
  }

  /** The connections in the broadcast group `room`. */
  function Members(groups: Groups, room: RoomName): set<ConnectionId> {
    if room in groups then groups[room] else {}
  }

  predicate Registered(reg: Registry, room: RoomName, c: ConnectionId) {
    room in reg && c in reg[room]
  }

  /** Every element of `s` occurs in it exactly once. */
  predicate NoDuplicates<T(==)>(s: seq<T>) {
    forall y | y in multiset(s) :: multiset(s)[y] == 1
  }

  function Count<T(==)>(s: seq<T>, x: T): nat {
    multiset(s)[x]
  }

  /** The registry shape the hub is meant to keep: a room has an entry only
      while someone is in it, and nobody is listed twice. */
  predicate RegistryInvariant(reg: Registry) {
    forall room | room in reg :: reg[room] != [] && NoDuplicates(reg[room])
  }

  /** The diagnostic lines the hub broadcasts under the `log` event. */
  datatype LogLine =
    | Said(client: ConnectionId, payload: string)
    | JoinRequested(room: RoomName, client: ConnectionId)
    | CreatedRoom(client: ConnectionId, room: RoomName)
    | JoinedRoom(client: ConnectionId, room: RoomName)
    | RoomSize(room: RoomName, clients: nat)
    | LeaveRequested(room: RoomName, client: ConnectionId)
    | LeftRoom(client: ConnectionId, room: RoomName)
    | RoomEmptied(room: RoomName)

  /** What the hub sends, with the connections it is addressed to at the
      moment it is sent. */
  datatype Event =
    | Created(to: ConnectionId)                                  // to the caller only
    | Joined(recipients: set<ConnectionId>)                      // to the whole group
    | Message(recipients: set<ConnectionId>, payload: string)    // to the group minus the sender
    | Log(recipients: set<ConnectionId>, line: LogLine)          // to the whole group

  /** How a hub call ended. `NullReference` is the exception raised when a
      join dereferences a project that does not exist; `Rejected` is the
      explicit refusal of the corrected join. */
  datatype Outcome = Completed | NullReference | Rejected

  datatype Step = Step(state: HubState, events: seq<Event>, outcome: Outcome)

  function Digit(d: nat): char
    requires d < 10
  {
    "0123456789"[d]
  }

  /** The number a string of decimal digits denotes, most significant
      digit first. */
  function DigitsValue(r: string): nat
    requires forall i | 0 <= i < |r| :: '0' <= r[i] <= '9'
  {
    if r == [] then 0
    else DigitsValue(r[..|r| - 1]) * 10 + (r[|r| - 1] as int - '0' as int)
  }

  /** Decimal rendering of a count, as string concatenation renders an
      `int`: the digits of `n` with no leading zero. */
  function Decimal(n: nat): (r: string)
    ensures |r| >= 1
    ensures forall i | 0 <= i < |r| :: '0' <= r[i] <= '9'
    ensures DigitsValue(r) == n
    ensures r[0] == '0' <==> n == 0
    ensures r[0] == '0' ==> r == "0"
  {
    if n < 10 then [Digit(n)]
    else
      var r := Decimal(n / 10) + [Digit(n % 10)];
      assert r[..|r| - 1] == Decimal(n / 10);
      r
  }

  const LogPrefix: string := "[Server]: "

  /** The text of a log line as broadcast. */
  function Text(line: LogLine): (r: string)
    ensures LogPrefix <= r
    ensures |r| > |LogPrefix|
  {
    LogPrefix + match line
      case Said(c, m) => "Client " + c + " said: " + m
      case JoinRequested(room, c) => "Received request to create or join room " + room + " from client " + c
      case CreatedRoom(c, room) => "Client " + c + " created room " + room
      case JoinedRoom(c, room) => "Client " + c + " joined room " + room
      case RoomSize(room, n) => "Room " + room + " now has " + Decimal(n) + " client(s)"
      case LeaveRequested(room, c) => "Received request to leave room " + room + " from client " + c
      case LeftRoom(c, room) => "Client " + c + " left room " + room
      case RoomEmptied(room) => "Room " + room + " is now empty - resetting its state"
  }

  /** `List.Remove`: drops the first occurrence of `x`, if any. */
  function RemoveFirst<T(==)>(s: seq<T>, x: T): (r: seq<T>)
    ensures multiset(r) == multiset(s) - multiset{x}
    ensures x !in s ==> r == s
    ensures x in s ==> |r| == |s| - 1
    ensures NoDuplicates(s) ==> NoDuplicates(r) && x !in r
  {
    if s == [] then []
    else if s[0] == x then
      assert s == [s[0]] + s[1..];
      s[1..]
    else
      assert s == [s[0]] + s[1..];
      [s[0]] + RemoveFirst(s[1..], x)
  }

  /** The second half of a join, once the caller is in the room's list:
      put the caller in the broadcast group, read the room's size, greet the
      caller as creator or the group with `joined`, and report the size. */
  function Announce(s: HubState, caller: ConnectionId, room: RoomName, request: Event): Step
    requires room in s.connected
  {
    var groups := s.groups[room := Members(s.groups, room) + {caller}];
    var n := |s.connected[room]|;
    var audience := groups[room];
    var greeting :=
      if n == 1 then [Created(caller), Log(audience, CreatedRoom(caller, room))]
      else [Joined(audience), Log(audience, JoinedRoom(caller, room))];
    Step(s.(groups := groups), [request] + greeting + [Log(audience, RoomSize(room, n))], Completed)
  }

  /** The first half of a join that does not fault: the room gets an entry
      and, unless the caller is listed already, the caller is appended to
      the room's list and to the project's collaborators. */
  function Registering(s: HubState, caller: ConnectionId, room: RoomName): (r: HubState)
    requires Registered(s.connected, room, caller) || room in s.projects
    ensures room in r.connected
  {
    var connected := s.connected[room := Roster(s.connected, room)];
    if caller in connected[room] then s.(connected := connected)
    else
      var p := s.projects[room];
      var projects := Put(s.projects, p.(collaborators := p.collaborators + [caller]));
      HubState(connected[room := connected[room] + [caller]], s.groups, projects)
  }

  /** `JoinRoom(room)` called by connection `caller`, as written. */
  function JoinRoom(s: HubState, caller: ConnectionId, room: RoomName): (r: Step)
    ensures room in r.state.connected
    ensures r.outcome == NullReference <==>
              !Registered(s.connected, room, caller) && room !in s.projects
    ensures r.outcome != Rejected
  {
    var request := Log(Members(s.groups, room), JoinRequested(room, caller));
    if !Registered(s.connected, room, caller) && room !in s.projects then
      Step(s.(connected := s.connected[room := Roster(s.connected, room)]), [request], NullReference)
    else
      Announce(Registering(s, caller, room), caller, room, request)
  }

  /** `LeaveRoom(room)` called by connection `caller`. */
  function LeaveRoom(s: HubState, caller: ConnectionId, room: RoomName): (r: Step)
    ensures r.outcome == Completed
    ensures r.state.projects == s.projects
    ensures room !in r.state.connected <==> room !in s.connected || s.connected[room] == [caller]
  {
    var audience := Members(s.groups, room);
    var request := Log(audience, LeaveRequested(room, caller));
    var groups := s.groups[room := audience - {caller}];
    if Registered(s.connected, room, caller) then
      var rest := RemoveFirst(s.connected[room], caller);
      var left := [request, Log(audience, LeftRoom(caller, room))];
      assert rest == [] <==> s.connected[room] == [caller] by {
        if rest == [] {
          assert |s.connected[room]| == 1 && s.connected[room][0] == caller;
        }
      }
      if rest == [] then
        Step(HubState(s.connected - {room}, groups, s.projects),
             left + [Log(audience, RoomEmptied(room))], Completed)
      else
        Step(HubState(s.connected[room := rest], groups, s.projects), left, Completed)
    else
      Step(s.(groups := groups), [request], Completed)
  }

  /** `SendMessage(payload, room)` called by connection `caller`. */
  function SendMessage(s: HubState, caller: ConnectionId, room: RoomName, payload: string): (r: Step)
    ensures r.state == s && r.outcome == Completed
    ensures |r.events| == 2
    ensures r.events[0] == Log(Members(s.groups, room), Said(caller, payload))
    ensures r.events[1].Message? && r.events[1].payload == payload
    ensures forall c :: c in r.events[1].recipients <==> c in Members(s.groups, room) && c != caller
  {
    var audience := Members(s.groups, room);
    Step(s, [Log(audience, Said(caller, payload)), Message(audience - {caller}, payload)], Completed)
  }

  /** The join with the project looked up before the room gets an entry: a
      first join to a room without a project is refused and changes nothing. */
  function JoinRoomChecked(s: HubState, caller: ConnectionId, room: RoomName): (r: Step)
    ensures !Registered(s.connected, room, caller) && room !in s.projects ==>
              && r.outcome == Rejected
              && r.state == s
              && r.events == [Log(Members(s.groups, room), JoinRequested(room, caller))]
    ensures Registered(s.connected, room, caller) || room in s.projects ==>
              r == JoinRoom(s, caller, room)
    ensures r.outcome != NullReference
  {
    if !Registered(s.connected, room, caller) && room !in s.projects then
      Step(s, [Log(Members(s.groups, room), JoinRequested(room, caller))], Rejected)
    else
      JoinRoom(s, caller, room)
  }
}
